=== FILE: README.md ===
# Employee directory front end — a Dafny model

This project models the client-side logic of a small employee-directory web
UI. A table lists employees fetched from `/api/employees`. An employee
information form creates employees (POST) and edits them (PUT). An update form
and an earlier add form are kept alongside it. The model covers the pure
rules of that UI and the form and table state transitions:

- **Salary formatting.** `formatSalaryValue` replaces every match of
  `\B(?=(\d{3})+(?!\d))` with a space. The model states that regular
  expression's matching rule for every input string (`Salary.SeparatorAt`). It
  proves that on digit strings the result is the usual right-to-left grouping
  in threes. It also proves that formatting is a one-to-one correspondence
  between non-empty digit strings and "grouped salaries": a first group of
  1–3 digits, then groups of exactly 3 digits, each after one space. The
  salary keystroke (strip non-digits, then format) is proved idempotent.
- **Name sanitisation.** The filter `[^a-zA-Z\s\-À-ɏ]` uses
  JavaScript's `\s` set. The model proves that the result keeps exactly the
  allowed characters, in order, and that it is the longest such subsequence.
- **Colour lookup.** The two revisions of `getDisplayColor` are separate
  functions: exact-match (`Colours.DisplayColorExact`) and lower-cased key
  (`Colours.DisplayColorFolded`). The model proves that they agree on every
  token the exact lookup maps and on every lower-case token. It also proves
  that they disagree on `RED`.
- **Salutation → gender.** `Mr` gives male, `Mrs`/`Ms` give female, and
  anything else leaves the gender as it was. Both later forms share this one
  definition.
- **Forms.** Each handler is a pure function from fields to fields:
  - employee load (`useEffect`);
  - input, select and radio changes;
  - Cancel;
  - submit, with the backend's answer given as an `Outcome` parameter.

  Contracts state which field changes and that nothing else does.
- **Table.** The table has these operations:
  - fetch completion;
  - `handleEmployeeFormDisplay`;
  - the two Close buttons;
  - rendering, where loading comes before the error and the error before the
    table.

  An invariant says the add and update forms are never shown together and
  that the update form always has a selected employee. The model proves that
  every event sequence keeps this invariant.

Modules: `Base` (option, filters, subsequences, decimal rendering), `Salary`,
`Names`, `Colours`, `Employees` (record, enums, gender rule, requests and
URLs), `InfoForm`, `UpdateForm`, `AddForm`, `Table`.

Points about the code that a reader might not expect:

- **Cancel in the information form.** Cancel reloads from the current
  `employee` property. No separate copy of the last-loaded employee is kept.
- **Empty fetch error.** An error whose message is empty is falsy in
  `if (error)`, so the table renders instead of the error view.
- **Name filter range.** The accepted range U+00C0–U+024F covers Latin-1
  Supplement from À on, Latin Extended-A and Latin Extended-B, including the
  signs × and ÷.
- **Table revision.** The table revision here shows `AddEmployeeForm` and
  `UpdateEmployeeForm`. Its "add employee" button only shows the add form. It
  neither clears the selection nor triggers a submit.

## Model

| member | source | states |
|---|---|---|
| `Salary.SeparatorAt` | src/components/EmployeeInfoForm.tsx:40 | Where `\B(?=(\d{3})+(?!\d))` matches: no word boundary, and a non-empty run of digits whose length is a multiple of three follows up to a non-digit or the end; characterised on digit strings by `Salary.SeparatorInDigits` |
| `Salary.ReplaceFrom` | src/components/EmployeeInfoForm.tsx:40 | The global replacement: a space before every matching position, each original character kept; characterised by `Salary.FormatThenRemoveSpaces` and `Salary.ReplaceFromLength` |
| `Salary.FormatSalaryValue` | src/components/EmployeeInfoForm.tsx:39-42 | `formatSalaryValue`, the replacement over the whole string; characterised by `Salary.FormatThenRemoveSpaces`, `Salary.FormatDigitsIsGrouping`, `Salary.FormatDigitsRoundTrip` and `Salary.GroupedIsFormatted` |
| `Salary.FormatThenRemoveSpaces` | src/components/EmployeeInfoForm.tsx:39-42 | On every input, formatting only inserts spaces: deleting spaces before or after formatting gives the same string, and the output is at least as long |
| `Salary.SeparatorInDigits` | src/components/EmployeeInfoForm.tsx:40 | On a digit string the pattern matches exactly at inner positions followed by a multiple of three digits |
| `Salary.FormatDigitsIsGrouping` | src/components/EmployeeInfoForm.tsx:39-42 | On digit strings the regular-expression replacement equals right-to-left grouping in threes |
| `Salary.FormatDigitsRoundTrip` | src/components/EmployeeInfoForm.tsx:39-42 | For a digit string, deleting the spaces of the formatted value gives back the input, and a non-empty one becomes a grouped salary |
| `Salary.GroupedIsFormatted` | src/components/EmployeeInfoForm.tsx:40 | Every grouped salary is the formatting of its own digits, so formatting is onto the grouped salaries |
| `Salary.GroupedShape` | src/components/EmployeeInfoForm.tsx:40 | A grouped salary has only digits and spaces, starts and ends with a digit, and never has two spaces in a row |
| `Salary.GroupDigitsGrouped` | src/components/EmployeeInfoForm.tsx:40 | Grouping a non-empty digit string yields groups of 1–3 then exactly 3 digits separated by single spaces |
| `Salary.FormatEmpty` | src/components/EmployeeInfoForm.tsx:39-42 | The empty string formats to itself |
| `Salary.FormatThousand` | src/components/EmployeeInfoForm.tsx:39-42 | `1000` formats to `1 000` |
| `Salary.FormatMillion` | src/components/EmployeeInfoForm.tsx:39-42 | `1000000` formats to `1 000 000` |
| `Salary.KeepDigits` | src/components/EmployeeInfoForm.tsx:83 | Stripping non-digits leaves only digits |
| `Salary.SalaryKeystroke` | src/components/EmployeeInfoForm.tsx:81-90 | The typed salary becomes the right-to-left grouping of exactly its digits (empty when there are none): digits and spaces only, whose digits are the typed digits |
| `Salary.SalaryKeystrokeIdempotent` | src/components/EmployeeInfoForm.tsx:81-90 | Applying the salary keystroke to its own output changes nothing |
| `Base.Filter` | src/components/EmployeeInfoForm.tsx:92 | The shape of every `.replace(/[^…]/g, '')`: the result is no longer than the input and holds only accepted characters; `Base.FilterCounts`, `Base.FilterOrder` and `Base.SubsequenceBound` give counts, order and maximality |
| `Base.FilterUnique` | src/components/EmployeeInfoForm.tsx:92 | The filtered string is the only subsequence of accepted characters of its length |
| `Names.IsJsWhitespace` | src/components/EmployeeInfoForm.tsx:92 | JavaScript's `\s`: the ECMAScript white-space and line-terminator code points; used through `Names.IsNameChar` |
| `Names.IsNameChar` | src/components/EmployeeInfoForm.tsx:92 | The class `[a-zA-Z\s\-À-ɏ]`: ASCII letters, `\s`, the hyphen and U+00C0–U+024F; characterised by `Names.SanitizeKeepsExactlyAllowed` and `Names.SanitizeFixesExactlyClean` |
| `Names.SanitizeName` | src/components/EmployeeInfoForm.tsx:92 | The sanitised name is no longer than the input and holds only allowed characters |
| `Names.SanitizeKeepsExactlyAllowed` | src/components/EmployeeInfoForm.tsx:91-97 | Each allowed character is kept as often as it occurs and no other is kept; the result is an order-preserving subsequence, no longer one of allowed characters exists, and it is the only one of its length |
| `Names.SanitizeIdempotent` | src/components/UpdateEmployeeForm.tsx:75-81 | Sanitising twice is sanitising once |
| `Names.SanitizeFixesExactlyClean` | src/components/UpdateEmployeeForm.tsx:76 | A name is left unchanged if and only if all its characters are allowed |
| `Names.SanitizeExample` | src/components/EmployeeInfoForm.tsx:92 | `John123` becomes `John` |
| `Names.SanitizeKeepsLatinRange` | src/components/EmployeeInfoForm.tsx:92 | Accented letters, hyphens and the sign × in the accepted range are kept |
| `Colours.DisplayColorExact` | src/components/EmployeeInfoForm.tsx:29-37 | A table key maps to a hex colour different from the key; any other token is returned unchanged |
| `Colours.ExactCases` | src/components/EmployeeInfoForm.test.tsx:5-21 | red, green and blue map to their pastels; none, purple and #123456 pass through |
| `Colours.ExactIdempotent` | src/components/EmployeeInfoForm.tsx:29-37 | Looking up a display value again returns it unchanged |
| `Colours.Lower` | src/components/EmployeeTable.tsx:22 | Lower-casing keeps length and maps each ASCII capital to its small letter |
| `Colours.DisplayColorFolded` | src/components/EmployeeTable.tsx:15-23 | The lower-cased token selects the colour; an unknown token is returned with its original case |
| `Colours.FoldedCases` | src/components/EmployeeTable.test.tsx:241-256 | `red`, `green`, `blue` map to their pastels; `yellow`, `#123456`, `none` and the empty string pass through unchanged |
| `Colours.FoldedMixedCase` | src/components/EmployeeTable.tsx:22 | `RED`, `Green`, `bLuE` map to their pastels; `Yellow` passes through with its case |
| `Colours.FoldedIgnoresCase` | src/components/EmployeeTable.tsx:22 | Tokens equal up to case get the same colour when either is a colour name |
| `Colours.FoldedExtendsExact` | src/components/EmployeeTable.tsx:15-23 | The case-folding lookup agrees with the exact one on every table key and on every lower-case token |
| `Colours.RevisionsDisagree` | src/components/EmployeeTable.tsx:22 | The two revisions give different results for `RED` |
| `Employees.NumberFromInput` | src/components/EmployeeInfoForm.tsx:78 | Empty text gives 0, otherwise the parse of the text |
| `Employees.WholeValue` | src/components/EmployeeInfoForm.tsx:78 | The number a stored or parsed employee number stands for: the integer itself, or for a plain digit string its base-ten value; unknown for other text |
| `Employees.DigitInputReadsItsValue` | src/components/EmployeeInfoForm.tsx:78 | Typed digits read as the number they spell, so `0` and `00` read as 0 just like the empty text |
| `Employees.RetypedNumberReadsBack` | src/components/EmployeeInfoForm.tsx:78 | Typing back the decimal rendering of a non-negative number gives that number |
| `Employees.GenderAfterSalutation` | src/components/EmployeeInfoForm.tsx:108-121 | Mr gives male, Mrs and Ms give female, every other salutation keeps the gender |
| `Employees.GenderRuleMatchesImplied` | src/components/UpdateEmployeeForm.tsx:92-105 | For each menu salutation the rule yields the implied gender when there is one, else the current gender |
| `Employees.GenderRuleIdempotent` | src/components/EmployeeInfoForm.tsx:108-121 | Choosing the same salutation twice is choosing it once |
| `Employees.ItemUrl` | src/components/EmployeeInfoForm.tsx:153 | The item URL is `/api/employees/` followed by the id's decimal rendering |
| `Base.IntDecimal` | src/components/EmployeeInfoForm.tsx:153 | The rendering of an id in a URL: a leading `-` exactly for negative ids, and the remaining digits spell the id's magnitude |
| `Employees.ItemUrlInjective` | src/components/EmployeeInfoForm.tsx:153 | Different ids give different item URLs |
| `Employees.ItemUrlNotCollection` | src/components/EmployeeInfoForm.tsx:185 | No item URL is the POST collection URL |
| `InfoForm.FromEmployee` | src/components/EmployeeInfoForm.tsx:60-68 | Every field is copied from the employee; the salary keeps its digits, and a digit salary is shown as its right-to-left grouping (an empty one as empty) |
| `InfoForm.Load` | src/components/EmployeeInfoForm.tsx:58-70 | A given employee replaces every field; no employee leaves the fields untouched rather than blanking them |
| `InfoForm.Blank` | src/components/EmployeeInfoForm.tsx:46-54 | The blank create-mode form, also restored after a successful create (lines 199-207); related to Cancel and submission by `InfoForm.Reset` and `InfoForm.SuccessfulSubmitFields` |
| `InfoForm.InputChange` | src/components/EmployeeInfoForm.tsx:72-98 | Only the named field changes: names sanitised, the employee number 0 for empty text and otherwise the parse of the text, the salary shown as the right-to-left grouping of exactly the typed digits, empty when there are none |
| `InfoForm.SelectChange` | src/components/EmployeeInfoForm.tsx:100-124 | The salutation is set, Mr forces male, Mrs/Ms force female, other values keep the gender, and no other field changes |
| `InfoForm.RadioChange` | src/components/EmployeeInfoForm.tsx:126-132 | Exactly the named field takes the value |
| `InfoForm.Reset` | src/components/EmployeeInfoForm.tsx:217-240 | Cancel gives the blank form in create mode and the loaded employee's fields in edit mode |
| `InfoForm.Submit` | src/components/EmployeeInfoForm.tsx:134-215 | With an employee it sends a PUT to its URL with its id; without one, a POST to the collection; onSuccess is called exactly on success; an alert is shown exactly on failure; only a successful POST blanks the fields |
| `InfoForm.SubmitForm` | src/components/EmployeeInfoForm.tsx:242-246 | The externally triggered submit is the Save-button submission in every respect: the same request, fields afterwards, notification and alert; in particular PUT or POST by mode with the current fields |
| `InfoForm.FailureKeepsFields` | src/components/EmployeeInfoForm.tsx:167-170 | A failed submission keeps the fields and shows the mode's failure alert |
| `InfoForm.SuccessfulSubmitFields` | src/components/EmployeeInfoForm.tsx:197-207 | A successful create leaves the form as Cancel in create mode would; a successful update keeps the fields |
| `InfoForm.PutTargetsTheEmployee` | src/components/EmployeeInfoForm.tsx:153 | Two edit-mode submissions share a URL only for the same employee id |
| `InfoForm.LoadIdempotent` | src/components/EmployeeInfoForm.tsx:58-70 | Loading the same employee twice is loading once, and Cancel restores what the load showed |
| `InfoForm.ReloadUndoesEdits` | src/components/EmployeeInfoForm.tsx:58-70 | A reload after any keystroke shows the employee again |
| `InfoForm.RetypingIsStable` | src/components/EmployeeInfoForm.tsx:81-97 | Typing a salary or name field's own shown value back in changes nothing |
| `InfoForm.GenderDoesNotDriveSalutation` | src/components/EmployeeInfoForm.tsx:100-132 | Choosing a gender never changes the salutation, while choosing Mr afterwards overrides the gender |
| `UpdateForm.FromEmployee` | src/components/UpdateEmployeeForm.tsx:31-39 | All seven fields are copied from the employee |
| `UpdateForm.Init` | src/components/UpdateEmployeeForm.tsx:29-39 | The first render holds the employee's fields and an empty salary box |
| `UpdateForm.Load` | src/components/UpdateEmployeeForm.tsx:41-53 | A reload replaces the fields and leaves the salary box as it was |
| `UpdateForm.InputChange` | src/components/UpdateEmployeeForm.tsx:55-82 | Only the edited field changes; the employee number is 0 for empty text and otherwise the parse of the text; the stored salary is the value of the typed digits (0 when none) and the box shows the right-to-left grouping of those digits (empty when none) |
| `UpdateForm.SelectChange` | src/components/UpdateEmployeeForm.tsx:84-108 | The same salutation-to-gender rule; nothing else, and not the salary box, changes |
| `UpdateForm.RadioChange` | src/components/UpdateEmployeeForm.tsx:110-116 | Exactly the named field takes the value |
| `UpdateForm.Reset` | src/components/UpdateEmployeeForm.tsx:154-165 | Cancel restores the first-render state: the employee's seven fields and an empty salary box |
| `UpdateForm.Submit` | src/components/UpdateEmployeeForm.tsx:118-152 | Always a PUT to the employee's URL with the employee's id and the current fields; the state never changes; the alert depends on the outcome |
| `UpdateForm.SalaryConsistencyPreserved` | src/components/UpdateEmployeeForm.tsx:63-73 | The salary box is empty or shows digits worth exactly the stored salary, and every handler but a reload keeps this |
| `UpdateForm.LoadKeepsStaleSalaryBox` | src/components/UpdateEmployeeForm.tsx:41-53 | After typing a salary, reloading with another employee leaves a box that disagrees with the stored salary |
| `UpdateForm.LoadClearingSalaryBox` | src/components/UpdateEmployeeForm.tsx:154-165 | A reload that also clears the box, as Cancel does, leaves the box and the stored salary consistent |
| `UpdateForm.DisplayMatchesInfoForm` | src/components/UpdateEmployeeForm.tsx:72 | The salary box shows what the information form shows for the same keystroke |
| `UpdateForm.SameRulesAsInfoForm` | src/components/UpdateEmployeeForm.tsx:75-108 | The update form applies the information form's gender rule and name filter |
| `AddForm.Initial` | src/components/AddEmployeeForm.tsx:16-24 | The first render: empty names, salutation `Mx`, gender `unspecified`, numbers 0, colour `none`, no `subscription` key; `AddForm.Reset` shows Cancel does not return to it |
| `AddForm.InputChange` | src/components/AddEmployeeForm.tsx:26-32 | The raw value goes into the named field, unsanitised, and nothing else changes |
| `AddForm.NamesAreNotSanitised` | src/components/AddEmployeeForm.tsx:26-32 | `John123` is stored as typed |
| `AddForm.SelectChange` | src/components/AddEmployeeForm.tsx:34-40 | Only the named field changes; no gender is derived |
| `AddForm.RadioChange` | src/components/AddEmployeeForm.tsx:42-47 | Only a `subscription` key is written; gender and colour never change |
| `AddForm.RadioClicksNeverChangeChoices` | src/components/AddEmployeeForm.tsx:42-47 | No sequence of radio clicks changes gender, colour, salutation or name |
| `AddForm.RadioChangeLosesSelection` | src/components/AddEmployeeForm.tsx:42-47 | Clicking Male or Red on a fresh form records neither, while the intended handler records both |
| `AddForm.RadioChangeIntended` | src/components/AddEmployeeForm.tsx:42-47 | The handler the markup expects sets the clicked group's own field |
| `AddForm.Reset` | src/components/AddEmployeeForm.tsx:16-64 | Cancel restores the initial state except an empty salutation, so it differs from the first render |
| `AddForm.Submit` | src/components/AddEmployeeForm.tsx:49-52 | Submitting changes no form state |
| `Table.Initial` | src/components/EmployeeTable.tsx:27-32 | The first render: loading, nothing fetched, no error, no form, no selection; `Table.FetchScenarios` and `Table.ReachableIsValid` start from it |
| `Table.FailureMessage` | src/components/EmployeeTable.tsx:39-47 | A non-ok status reads `HTTP error! status: N`, a thrown Error its message, anything else the fixed unknown-error text |
| `Table.FetchCompleted` | src/components/EmployeeTable.tsx:34-54 | After the fetch, loading is off whether it succeeded or failed; the list or the message is stored |
| `Table.DisplayForm` | src/components/EmployeeTable.tsx:56-66 | `add` shows the add form alone and keeps the selection; `update` with an employee shows the update form alone and selects it; anything else changes nothing |
| `Table.CloseAdd` | src/components/EmployeeTable.tsx:106 | Close under the add form hides it and nothing else |
| `Table.CloseUpdate` | src/components/EmployeeTable.tsx:112 | Close under the update form hides it and nothing else |
| `Table.Render` | src/components/EmployeeTable.tsx:68-115 | Loading comes first, then a non-empty error as `Error: <message>`, then the table: it lists the fetched rows (none before a fetch succeeds), shows the add form exactly when it is open, and hands the update form the selected employee exactly when that form is open |
| `Table.RowClickShowsEmployee` | src/components/EmployeeTable.test.tsx:103-139 | Clicking a row of a shown table opens the update form, alone, with exactly the clicked employee, over the same rows |
| `Table.RowColour` | src/components/EmployeeTable.tsx:91 | A coloured row gets a hex pastel, an uncoloured one the literal `none` |
| `Table.RowColourRevisionsAgree` | src/components/EmployeeTable.tsx:91 | Stored colours are lower case, so both lookup revisions colour every row alike |
| `Table.Step` | src/components/EmployeeTable.tsx:56-112 | One event: fetch completion, the add button, a row click, or either Close button; kept valid by `Table.StepKeepsValid` |
| `Table.Valid` | src/components/EmployeeTable.tsx:56-112 | The view invariant: never both forms at once, and the update form only with a selected employee |
| `Table.StepKeepsValid` | src/components/EmployeeTable.tsx:56-112 | Every event keeps the forms mutually exclusive and the update form backed by a selection |
| `Table.RunKeepsValid` | src/components/EmployeeTable.tsx:56-112 | Every sequence of events keeps that invariant |
| `Table.ReachableIsValid` | src/components/EmployeeTable.tsx:27-32 | Every state reachable from the first render satisfies the invariant |
| `Table.ErrorIsFinal` | src/components/EmployeeTable.tsx:68-69 | Once a failed fetch shows an error, no user event brings the table back |
| `Table.FetchScenarios` | src/components/EmployeeTable.test.tsx:40-59 | The first render is loading; a rejected fetch shows `Error: <message>`; a loaded fetch shows the rows with no form |

## Left out

- Network I/O is not modelled. This covers `fetch`, `response.json()`, `alert` and `console`. A submission's result is the abstract `Outcome` parameter. The list fetch's result is the `FetchOutcome` parameter.
- `onSuccess` is assumed not to throw. It runs inside the `try` block in both modes, so a throwing callback would show the failure alert after a request that succeeded, and in create mode would also skip the reset to the blank form.
- `Employees.WholeValue`: `parseFloat` is kept symbolic as `ParseFloatOf(text)`, because floating-point parsing is not modelled. Its value is given only for plain digit strings; signs, decimals, exponents, leading white space and trailing garbage are left unknown.
- Numeric salaries are natural numbers; ids and employee numbers are integers. Negative or fractional values from the server are not modelled, and neither is JavaScript number precision above 2^53.
- `Employees.ItemUrl`: the exponent notation JavaScript uses for integers of magnitude 10^21 and above is not modelled.
- The colour table is a three-key map. Inherited object keys such as `constructor` are not modelled.
- `Colours.Lower`: lower-casing covers ASCII letters only. JavaScript's full Unicode case mapping sends only the Kelvin sign and U+0130 into ASCII, and neither produces `red`, `green` or `blue`, so the lookup result is the same.
- Strings are sequences of Unicode scalar values. A UTF-16 surrogate pair is one character here. Neither of its halves is in the name class or `\d`, so the filters drop it either way. Lone surrogates are not modelled.
- Handlers receive only the field names the markup wires to them. Arbitrary dynamic keys are not modelled.
- React scheduling, `forwardRef`/`useImperativeHandle` wiring, JSX/MUI rendering and overlapping requests are not modelled.
- `DataTest.tsx` and `App.tsx` are fetch and render plumbing with no logic.
- The refresh and `submitForm` tests in `EmployeeTable.test.tsx` target a table revision that is not part of this model. Only their `getDisplayColor` and loading/error cases are used.
- `Table.Render`: the update form's presence matches `showUpdate` only in states satisfying `Table.Valid`. All reachable states do (`Table.ReachableIsValid`).

## Findings

| source | as written | input that shows it | evidently intended | confidence | as-written member | corrected member |
|---|---|---|---|---|---|---|
| src/components/AddEmployeeForm.tsx:42-47 | The radio handler writes `subscription`, whatever group fired | Click `Male` or `Red` on a fresh form: gender stays `unspecified`, colour stays `none` | Write the value into the fired group's field (`[name]: value`) | high, not executed | `AddForm.RadioChangeLosesSelection` | `AddForm.RadioChangeIntended` |
| src/components/UpdateEmployeeForm.tsx:41-53 | Reloading for a new employee replaces the fields but keeps the salary box text | Type `7` for one employee, then select another who earns 60000: the box shows `7`, while 60000 is stored and sent | Clear the box on reload, as Cancel does | medium, not executed | `UpdateForm.LoadKeepsStaleSalaryBox` | `UpdateForm.LoadClearingSalaryBox` |

=== FILE: add_form.dfy ===
/** The earlier add form: a stand-alone form that stores what is typed
    without any normalisation and submits nothing. */
module AddForm {
  import opened Base
  import opened Employees

  /** A field that starts as a number and holds the raw typed text after the
      first keystroke (the handler stores the event's string as is). */
  datatype Scalar = Number(n: int) | Text(s: string)

  /** The form state. `subscription` is the key the radio handler writes; it
      is absent until then. */
  datatype Fields = Fields(
    firstName: string,
    lastName: string,
    salutation: string,
    gender: string,
    employeeNumber: Scalar,
    grossSalary: Scalar,
    profileColour: string,
    subscription: Option<string>)

  /** The state of the first render. */
  const Initial: Fields :=
    Fields("", "", "Mx", "unspecified", Number(0), Number(0), "none", None)

  /** `handleInputChange`: the raw value goes into the named field. */
  function InputChange(f: Fields, name: InputName, value: string): (r: Fields)
    ensures name == FirstName ==> r == f.(firstName := value)
    ensures name == LastName ==> r == f.(lastName := value)
    ensures name == EmployeeNumber ==> r == f.(employeeNumber := Text(value))
    ensures name == GrossSalary ==> r == f.(grossSalary := Text(value))
  {
    match name
    case FirstName => f.(firstName := value)
    case LastName => f.(lastName := value)
    case EmployeeNumber => f.(employeeNumber := Text(value))
    case GrossSalary => f.(grossSalary := Text(value))
  }

  /** `handleSelectChange`: the named field takes the value; this form has
      no salutation-to-gender rule. */
  function SelectChange(f: Fields, name: ChoiceName, value: string): (r: Fields)
    ensures name == SalutationChoice ==> r == f.(salutation := value)
    ensures name == GenderChoice ==> r == f.(gender := value)
    ensures name == ColourChoice ==> r == f.(profileColour := value)
  {
    match name
    case SalutationChoice => f.(salutation := value)
    case GenderChoice => f.(gender := value)
    case ColourChoice => f.(profileColour := value)
  }

  /** `handleRadioChange` as written: whichever radio group fired, the value
      goes into a `subscription` key, never into the group's own field. */
  function RadioChange(f: Fields, name: ChoiceName, value: string): (r: Fields)
    ensures r.gender == f.gender && r.profileColour == f.profileColour
    ensures r == f.(subscription := Some(value))
  {
    f.(subscription := Some(value))
  }

  /** The radio handler the form's markup expects: the group's own field
      takes the value. */
  function RadioChangeIntended(f: Fields, name: ChoiceName, value: string): (r: Fields)
    ensures name == GenderChoice ==> r == f.(gender := value)
    ensures name == ColourChoice ==> r == f.(profileColour := value)
    ensures name == SalutationChoice ==> r == f.(salutation := value)
  {
    match name
    case SalutationChoice => f.(salutation := value)
    case GenderChoice => f.(gender := value)
    case ColourChoice => f.(profileColour := value)
  }

  /** Clicking `Male` on a fresh form leaves the gender unspecified, and
      clicking `Red` leaves the colour at `none`; the intended handler would
      have recorded both. */
  lemma RadioChangeLosesSelection()
    ensures RadioChange(Initial, GenderChoice, "male").gender == "unspecified"
    ensures RadioChange(Initial, ColourChoice, "red").profileColour == "none"
    ensures RadioChangeIntended(Initial, GenderChoice, "male").gender == "male"
    ensures RadioChangeIntended(Initial, ColourChoice, "red").profileColour == "red"
  {
  }

  /** No sequence of radio clicks ever changes gender or colour. */
  lemma {:induction false} RadioClicksNeverChangeChoices(f: Fields, clicks: seq<(ChoiceName, string)>)
    ensures var r := RadioClicks(f, clicks);
      r.gender == f.gender && r.profileColour == f.profileColour
      && r.salutation == f.salutation && r.firstName == f.firstName
    decreases |clicks|
  {
    if clicks != [] {
      RadioClicksNeverChangeChoices(RadioChange(f, clicks[0].0, clicks[0].1), clicks[1..]);
    }
  }

  /** A run of radio clicks, in order. */
  function RadioClicks(f: Fields, clicks: seq<(ChoiceName, string)>): Fields
    decreases |clicks|
  {
    if clicks == [] then f
    else RadioClicks(RadioChange(f, clicks[0].0, clicks[0].1), clicks[1..])
  }

  /** `handleReset` (Cancel): the defaults, except an empty salutation. */
  function Reset(): (r: Fields)
    ensures r == Initial.(salutation := "")
    ensures r != Initial
  {
    Fields("", "", "", "unspecified", Number(0), Number(0), "none", None)
  }

  /** `handleSubmit`: logs the fields and changes nothing; no request is
      sent. */
  function Submit(f: Fields): (r: Fields)
    ensures r == f
  {
    f
  }

  /** Typed names reach the state unsanitised, unlike the later forms. */
  lemma NamesAreNotSanitised()
    ensures InputChange(Initial, FirstName, "John123").firstName == "John123"
  {
  }
}

=== FILE: base.dfy ===
/** Shared building blocks: an optional value, order-preserving character
    filters (the shape of every `value.replace(/[^...]/g, '')` in the forms),
    subsequences, and decimal rendering of integers (template literals such as
    `${employee.id}`). */
module Base {

  /** A value that may be absent: JavaScript's `null` / missing key. */
  datatype Option<T> = None | Some(value: T)

  predicate IsDigit(c: char) {
    '0' <= c <= '9'
  }

  predicate AllDigits(s: string) {
    forall i :: 0 <= i < |s| ==> IsDigit(s[i])
  }

  /** `t` can be obtained from `s` by deleting characters, keeping order. */
  predicate IsSubsequence(t: string, s: string)
    decreases |s|
  {
    if t == [] then true
    else if s == [] then false
    else (t[0] == s[0] && IsSubsequence(t[1..], s[1..])) || IsSubsequence(t, s[1..])
  }

  /** Keeps the characters of `s` that satisfy `p`, in their original order. */
  function Filter(p: char -> bool, s: string): (r: string)
    ensures |r| <= |s|
    ensures forall i :: 0 <= i < |r| ==> p(r[i])
    decreases |s|
  {
    if s == [] then []
    else (if p(s[0]) then [s[0]] else []) + Filter(p, s[1..])
  }

  /** The filter keeps every accepted character as often as it occurs and
      drops every other one. */
  lemma {:induction false} FilterCounts(p: char -> bool, s: string)
    ensures forall c :: multiset(Filter(p, s))[c] == if p(c) then multiset(s)[c] else 0
    decreases |s|
  {
    if s != [] {
      FilterCounts(p, s[1..]);
      assert s == [s[0]] + s[1..];
      assert multiset(s) == multiset([s[0]]) + multiset(s[1..]);
      var head := if p(s[0]) then [s[0]] else [];
      assert multiset(Filter(p, s)) == multiset(head) + multiset(Filter(p, s[1..]));
    }
  }

  /** The filter keeps the original order: its result is a subsequence. */
  lemma {:induction false} FilterOrder(p: char -> bool, s: string)
    ensures IsSubsequence(Filter(p, s), s)
    decreases |s|
  {
    if s != [] {
      var rest := Filter(p, s[1..]);
      FilterOrder(p, s[1..]);
      if p(s[0]) {
        assert Filter(p, s) == [s[0]] + rest;
        assert ([s[0]] + rest)[1..] == rest;
      } else {
        assert Filter(p, s) == rest;
      }
    }
  }

  lemma {:induction false} FilterAppend(p: char -> bool, a: string, b: string)
    ensures Filter(p, a + b) == Filter(p, a) + Filter(p, b)
    decreases |a|
  {
    if a == [] {
      assert a + b == b;
    } else {
      assert (a + b)[1..] == a[1..] + b;
      FilterAppend(p, a[1..], b);
    }
  }

  /** A string all of whose characters pass the filter comes back unchanged. */
  lemma {:induction false} FilterKeepsClean(p: char -> bool, s: string)
    requires forall i :: 0 <= i < |s| ==> p(s[i])
    ensures Filter(p, s) == s
    decreases |s|
  {
    if s != [] {
      FilterKeepsClean(p, s[1..]);
    }
  }

  /** A string none of whose characters pass the filter disappears. */
  lemma {:induction false} FilterDropsRejected(p: char -> bool, s: string)
    requires forall i :: 0 <= i < |s| ==> !p(s[i])
    ensures Filter(p, s) == []
    decreases |s|
  {
    if s != [] {
      FilterDropsRejected(p, s[1..]);
    }
  }

  /** Filtering twice is filtering once. */
  lemma FilterIdempotent(p: char -> bool, s: string)
    ensures Filter(p, Filter(p, s)) == Filter(p, s)
  {
    FilterKeepsClean(p, Filter(p, s));
  }

  /** No subsequence made only of accepted characters is longer than the filter. */
  lemma {:induction false} SubsequenceBound(p: char -> bool, t: string, s: string)
    requires IsSubsequence(t, s)
    requires forall i :: 0 <= i < |t| ==> p(t[i])
    ensures |t| <= |Filter(p, s)|
    decreases |s|
  {
    if t != [] {
      if t[0] == s[0] && IsSubsequence(t[1..], s[1..]) {
        SubsequenceBound(p, t[1..], s[1..]);
      } else {
        SubsequenceBound(p, t, s[1..]);
      }
    }
  }

  /** The filter is the only longest subsequence made of accepted characters:
      it keeps exactly the accepted characters and nothing else. */
  lemma {:induction false} FilterUnique(p: char -> bool, t: string, s: string)
    requires IsSubsequence(t, s)
    requires forall i :: 0 <= i < |t| ==> p(t[i])
    requires |t| >= |Filter(p, s)|
    ensures t == Filter(p, s)
    decreases |s|
  {
    if t == [] {
    } else if s == [] {
    } else if p(s[0]) {
      if t[0] == s[0] && IsSubsequence(t[1..], s[1..]) {
        FilterUnique(p, t[1..], s[1..]);
        assert t == [t[0]] + t[1..];
      } else {
        SubsequenceBound(p, t, s[1..]);
      }
    } else {
      assert t[0] != s[0];
      FilterUnique(p, t, s[1..]);
    }
  }

  function DigitChar(d: nat): (c: char)
    requires d < 10
    ensures IsDigit(c)
  {
    ('0' as int + d) as char
  }

  /** The numeric value of a string of decimal digits (the empty string is 0). */
  function DigitsValue(s: string): nat
    requires AllDigits(s)
    decreases |s|
  {
    if s == [] then 0
    else DigitsValue(s[..|s| - 1]) * 10 + (s[|s| - 1] as int - '0' as int)
  }

  /** The shortest decimal rendering of a natural number. */
  function NatDecimal(n: nat): (r: string)
    ensures 1 <= |r| && AllDigits(r)
    ensures |r| > 1 ==> r[0] != '0'
    ensures DigitsValue(r) == n
    decreases n
  {
    if n < 10 then [DigitChar(n)]
    else
      var r := NatDecimal(n / 10) + [DigitChar(n % 10)];
      assert r[..|r| - 1] == NatDecimal(n / 10);
      r
  }

  /** Decimal rendering of an integer, with a leading `-` when negative. */
  function IntDecimal(i: int): (r: string)
    ensures |r| >= 1
    ensures (r[0] == '-') <==> i < 0
    ensures i >= 0 ==> AllDigits(r) && DigitsValue(r) == i
    ensures i < 0 ==> AllDigits(r[1..]) && DigitsValue(r[1..]) == -i
  {
    if i < 0 then "-" + NatDecimal(-i) else NatDecimal(i)
  }

  /** Distinct integers render to distinct strings. */
  lemma IntDecimalInjective(a: int, b: int)
    requires IntDecimal(a) == IntDecimal(b)
    ensures a == b
  {
    var r := IntDecimal(a);
    if a < 0 {
      assert r[1..] == NatDecimal(-a) == NatDecimal(-b);
    } else {
      assert DigitsValue(NatDecimal(a)) == DigitsValue(NatDecimal(b));
    }
  }
}

=== FILE: colours.dfy ===
/** The display-colour lookup, in its two revisions. Both map a stored
    profile colour to a pastel background through a three-entry table and
    fall back to the token itself. The employee information form looks the
    token up as given; the employee table lower-cases it first. The two are
    kept apart on purpose: they disagree on upper-case tokens. */
module Colours {

  /** The colour table shared by both revisions. */
  const ColourMap: map<string, string> :=
    map["red" := "#ffcccc", "green" := "#ccffcc", "blue" := "#ccccff"]

  /** A display value the table produces: a `#` followed by six hex digits. */
  predicate IsHexColour(s: string) {
    |s| == 7 && s[0] == '#'
      && forall i :: 1 <= i < 7 ==> ('0' <= s[i] <= '9' || 'a' <= s[i] <= 'f')
  }

  /** `getDisplayColor` of the employee information form: exact-match lookup.
      Every table value is non-empty, so `colorMap[t] || t` falls back only on
      a missing key. */
  function DisplayColorExact(token: string): (r: string)
    ensures token in ColourMap ==> IsHexColour(r) && r != token
    ensures token !in ColourMap ==> r == token
  {
    if token in ColourMap then ColourMap[token] else token
  }

  /** ASCII lower-casing of one character. */
  function LowerChar(c: char): (d: char)
    ensures 'A' <= c <= 'Z' ==> 'a' <= d <= 'z'
    ensures !('A' <= c <= 'Z') ==> d == c
  {
    if 'A' <= c <= 'Z' then (c as int + 32) as char else c
  }

  /** `toLowerCase`, restricted to the ASCII letters. */
  function Lower(s: string): (r: string)
    ensures |r| == |s|
    ensures forall i :: 0 <= i < |s| ==> r[i] == LowerChar(s[i])
  {
    seq(|s|, i requires 0 <= i < |s| => LowerChar(s[i]))
  }

  /** `getDisplayColor` of the employee table: the lookup key is the
      lower-cased token, the fallback is the token as given. */
  function DisplayColorFolded(token: string): (r: string)
    ensures Lower(token) in ColourMap ==> r == ColourMap[Lower(token)]
    ensures Lower(token) !in ColourMap ==> r == token
  {
    var key := Lower(token);
    if key in ColourMap then ColourMap[key] else token
  }

  /** The concrete cases of the information form's revision. */
  lemma ExactCases()
    ensures DisplayColorExact("red") == "#ffcccc"
    ensures DisplayColorExact("green") == "#ccffcc"
    ensures DisplayColorExact("blue") == "#ccccff"
    ensures DisplayColorExact("none") == "none"
    ensures DisplayColorExact("purple") == "purple"
    ensures DisplayColorExact("#123456") == "#123456"
  {
  }

  /** A display value is never itself a key, so looking it up again keeps it. */
  lemma ExactIdempotent(token: string)
    ensures DisplayColorExact(DisplayColorExact(token)) == DisplayColorExact(token)
  {
    if token in ColourMap {
      assert DisplayColorExact(token) !in ColourMap by {
        assert DisplayColorExact(token)[0] == '#';
      }
    }
  }

  /** The table's revision ignores ASCII case in its key: tokens that agree
      up to case get the same display colour when either is a known colour. */
  lemma FoldedIgnoresCase(a: string, b: string)
    requires Lower(a) == Lower(b)
    requires Lower(a) in ColourMap
    ensures DisplayColorFolded(a) == DisplayColorFolded(b)
  {
  }

  /** The table's revision extends the form's: on every token the form maps,
      the table maps it the same way; on a lower-case token the two agree. */
  lemma FoldedExtendsExact(token: string)
    ensures token in ColourMap ==> DisplayColorFolded(token) == DisplayColorExact(token)
    ensures Lower(token) == token ==> DisplayColorFolded(token) == DisplayColorExact(token)
  {
    if token in ColourMap {
      assert Lower(token) == token by {
        assert token == "red" || token == "green" || token == "blue";
      }
    }
  }

  /** The table revision's own cases: the three keys map to their pastels;
      unknown tokens, a hex value, `none` and the empty token pass through. */
  lemma FoldedCases()
    ensures DisplayColorFolded("red") == "#ffcccc"
    ensures DisplayColorFolded("green") == "#ccffcc"
    ensures DisplayColorFolded("blue") == "#ccccff"
    ensures DisplayColorFolded("yellow") == "yellow"
    ensures DisplayColorFolded("#123456") == "#123456"
    ensures DisplayColorFolded("none") == "none"
    ensures DisplayColorFolded("") == ""
  {
    assert Lower("red") == "red";
    assert Lower("green") == "green";
    assert Lower("blue") == "blue";
    assert Lower("yellow") == "yellow";
    assert Lower("#123456") == "#123456";
    assert Lower("none") == "none";
    assert Lower("") == "";
  }

  /** Mixed-case tokens: a colour name in any case is found, and an unknown
      token comes back with its case intact. */
  lemma FoldedMixedCase()
    ensures DisplayColorFolded("RED") == "#ffcccc"
    ensures DisplayColorFolded("Green") == "#ccffcc"
    ensures DisplayColorFolded("bLuE") == "#ccccff"
    ensures DisplayColorFolded("Yellow") == "Yellow"
  {
    assert Lower("RED") == "red";
    assert Lower("Green") == "green";
    assert Lower("bLuE") == "blue";
    assert Lower("Yellow") == "yellow";
  }

  /** The two revisions disagree: an upper-case token is a colour for the
      table and passes through the form unchanged. */
  lemma RevisionsDisagree()
    ensures DisplayColorFolded("RED") != DisplayColorExact("RED")
  {
    assert Lower("RED") == "red";
  }
}

=== FILE: employees.dfy ===
/** The employee record, the field names the forms' change handlers receive,
    the salutation-to-gender rule, and the requests the forms send. */
module Employees {
  import opened Base

  datatype Salutation = Dr | Mr | Mrs | Ms | Mx {
    function Text(): string {
      match this
      case Dr => "Dr"
      case Mr => "Mr"
      case Mrs => "Mrs"
      case Ms => "Ms"
      case Mx => "Mx"
    }
  }

  datatype Gender = Male | Female | Unspecified {
    function Text(): string {
      match this
      case Male => "male"
      case Female => "female"
      case Unspecified => "unspecified"
    }
  }

  datatype Colour = Green | Blue | Red | NoColour {
    function Text(): string {
      match this
      case Green => "green"
      case Blue => "blue"
      case Red => "red"
      case NoColour => "none"
    }
  }

  /** An employee as the backend delivers it. The gross salary arrives as a
      string in one revision of the form and as a number in another, so its
      type is a parameter. */
  datatype Employee<Salary> = Employee(
    id: int,
    firstName: string,
    lastName: string,
    salutation: Salutation,
    gender: Gender,
    employeeNumber: int,
    grossSalary: Salary,
    profileColour: Colour)

  /** The employee number held by a form: a whole number, or the result of
      `parseFloat` on a non-empty typed text (floating point is not modelled,
      so the parse is kept symbolic). */
  datatype Num = Int(n: int) | ParseFloatOf(text: string)

  /** `value ? parseFloat(value) : 0`: the empty text reads as zero, any
      other text is handed to `parseFloat`. */
  function NumberFromInput(value: string): (n: Num)
    ensures value == "" ==> n == Int(0)
    ensures value != "" ==> n == ParseFloatOf(value)
  {
    if value == "" then Int(0) else ParseFloatOf(value)
  }

  /** The whole number an employee number stands for, where the model knows
      it: a stored integer, or `parseFloat` of a plain decimal digit string,
      which reads those digits in base ten, leading zeros included. Any other
      parsed text is left unknown. */
  function WholeValue(n: Num): (v: Option<int>)
    ensures n.Int? ==> v == Some(n.n)
    ensures n.ParseFloatOf? && n.text != "" && AllDigits(n.text) ==> v == Some(DigitsValue(n.text))
    ensures n.ParseFloatOf? && (n.text == "" || !AllDigits(n.text)) ==> v == None
  {
    match n
    case Int(i) => Some(i)
    case ParseFloatOf(t) => if t != "" && AllDigits(t) then Some(DigitsValue(t)) else None
  }

  /** Typed digits read as the number they spell; the empty text reads as
      0, and so does every non-empty run of zeros such as `0` or `00`. */
  lemma DigitInputReadsItsValue(value: string)
    requires AllDigits(value)
    ensures WholeValue(NumberFromInput(value)) == Some(DigitsValue(value))
    ensures (forall i :: 0 <= i < |value| ==> value[i] == '0')
         ==> WholeValue(NumberFromInput(value)) == Some(0)
  {
    if forall i :: 0 <= i < |value| ==> value[i] == '0' {
      ZerosValue(value);
    }
  }

  lemma {:induction false} ZerosValue(s: string)
    requires forall i :: 0 <= i < |s| ==> s[i] == '0'
    ensures AllDigits(s) && DigitsValue(s) == 0
    decreases |s|
  {
    if s != [] {
      ZerosValue(s[..|s| - 1]);
    }
  }

  /** Typing back the decimal rendering of a non-negative number gives that
      number again. */
  lemma RetypedNumberReadsBack(k: nat)
    ensures WholeValue(NumberFromInput(NatDecimal(k))) == Some(k)
  {
  }

  /** Names of the text inputs wired to `handleInputChange`. */
  datatype InputName = FirstName | LastName | EmployeeNumber | GrossSalary

  /** Names of the select and radio groups wired to `handleSelectChange` and
      `handleRadioChange`. */
  datatype ChoiceName = SalutationChoice | GenderChoice | ColourChoice

  /** The gender a salutation implies, if any. */
  function ImpliedGender(s: Salutation): Option<Gender> {
    match s
    case Mr => Some(Male)
    case Mrs => Some(Female)
    case Ms => Some(Female)
    case Dr => None
    case Mx => None
  }

  /** The gender after choosing salutation `salutation` with gender `gender`
      on screen: the `switch` of both forms' `handleSelectChange`. */
  function GenderAfterSalutation(salutation: string, gender: string): (g: string)
    ensures salutation == "Mr" ==> g == "male"
    ensures salutation == "Mrs" || salutation == "Ms" ==> g == "female"
    ensures salutation != "Mr" && salutation != "Mrs" && salutation != "Ms" ==> g == gender
  {
    match salutation
    case "Mr" => "male"
    case "Mrs" => "female"
    case "Ms" => "female"
    case _ => gender
  }

  /** For each salutation on the menu, the rule sets the implied gender when
      there is one and keeps the current gender otherwise. */
  lemma GenderRuleMatchesImplied(s: Salutation, gender: string)
    ensures GenderAfterSalutation(s.Text(), gender)
         == match ImpliedGender(s) case Some(g) => g.Text() case None => gender
  {
  }

  /** Choosing the same salutation twice is choosing it once. */
  lemma GenderRuleIdempotent(salutation: string, gender: string)
    ensures GenderAfterSalutation(salutation, GenderAfterSalutation(salutation, gender))
         == GenderAfterSalutation(salutation, gender)
  {
  }

  datatype Method = Post | Put

  /** A JSON request the forms send: the target, and the body's optional `id`
      and the form fields. */
  datatype Request<Fields> = Request(verb: Method, url: string, id: Option<int>, fields: Fields)

  const CollectionUrl: string := "/api/employees"

  /** `/api/employees/${id}`. */
  function ItemUrl(id: int): (u: string)
    ensures |u| > |CollectionUrl| + 1
    ensures u[..|CollectionUrl| + 1] == CollectionUrl + "/"
    ensures u[|CollectionUrl| + 1..] == IntDecimal(id)
  {
    CollectionUrl + "/" + IntDecimal(id)
  }

  /** Different employees are addressed by different URLs. */
  lemma ItemUrlInjective(a: int, b: int)
    requires ItemUrl(a) == ItemUrl(b)
    ensures a == b
  {
    var k := |CollectionUrl| + 1;
    assert ItemUrl(a)[k..] == IntDecimal(a);
    assert ItemUrl(b)[k..] == IntDecimal(b);
    IntDecimalInjective(a, b);
  }

  /** The collection URL is no employee's URL. */
  lemma ItemUrlNotCollection(id: int)
    ensures ItemUrl(id) != CollectionUrl
  {
  }

  /** What the backend answered: an ok response, or any failure (a non-ok
      status, an unreadable body, a network error). */
  datatype Outcome = Succeeded | Failed
}

=== FILE: info_form.dfy ===
/** The employee information form: one form for creating an employee (no
    employee given) and editing one (an employee given). Each handler is a
    pure transition from the current fields to the next. */
module InfoForm {
  import opened Base
  import opened Employees
  import opened Salary
  import opened Names

  /** The form's state. Salutation and gender are plain strings because the
      blank form holds `''` in both. */
  datatype Fields = Fields(
    firstName: string,
    lastName: string,
    salutation: string,
    gender: string,
    employeeNumber: Num,
    grossSalary: string,
    profileColour: string)

  /** The blank form of create mode. */
  const Blank: Fields := Fields("", "", "", "", Int(0), "", "none")

  /** The fields shown for an employee: every field copied, the salary
      passed through the formatter. */
  function FromEmployee(e: Employee<string>): (f: Fields)
    ensures f.firstName == e.firstName && f.lastName == e.lastName
    ensures f.salutation == e.salutation.Text() && f.gender == e.gender.Text()
    ensures f.employeeNumber == Int(e.employeeNumber)
    ensures RemoveSpaces(f.grossSalary) == RemoveSpaces(e.grossSalary)
    ensures AllDigits(e.grossSalary) ==> f.grossSalary == GroupDigits(e.grossSalary)
    ensures AllDigits(e.grossSalary) && e.grossSalary != "" ==> Grouped(f.grossSalary)
    ensures f.profileColour == e.profileColour.Text()
  {
    FormatThenRemoveSpaces(e.grossSalary);
    FormatGroupsDigitStrings(e.grossSalary);
    Fields(e.firstName, e.lastName, e.salutation.Text(), e.gender.Text(),
           Int(e.employeeNumber), FormatSalaryValue(e.grossSalary), e.profileColour.Text())
  }

  /** The effect run when the `employee` property changes: a given employee
      replaces every field; no employee leaves the fields as they are (it
      does not blank them). */
  function Load(current: Fields, employee: Option<Employee<string>>): (f: Fields)
    ensures employee.None? ==> f == current
    ensures employee.Some? ==> f == FromEmployee(employee.value)
  {
    match employee
    case Some(e) => FromEmployee(e)
    case None => current
  }

  /** `handleInputChange`: the employee number is parsed, the salary is
      reduced to digits and grouped, a name is sanitised; only the named
      field changes. */
  function InputChange(f: Fields, name: InputName, value: string): (r: Fields)
    ensures name == FirstName ==> r == f.(firstName := r.firstName)
    ensures name == LastName ==> r == f.(lastName := r.lastName)
    ensures name == EmployeeNumber ==> r == f.(employeeNumber := r.employeeNumber)
    ensures name == GrossSalary ==> r == f.(grossSalary := r.grossSalary)
    ensures name == FirstName ==> r.firstName == SanitizeName(value)
    ensures name == LastName ==> r.lastName == SanitizeName(value)
    ensures name == EmployeeNumber ==> r.employeeNumber == NumberFromInput(value)
    ensures name == GrossSalary ==> RemoveSpaces(r.grossSalary) == KeepDigits(value)
    ensures name == GrossSalary ==> r.grossSalary == GroupDigits(KeepDigits(value))
    ensures name == GrossSalary && KeepDigits(value) != "" ==> Grouped(r.grossSalary)
  {
    match name
    case EmployeeNumber => f.(employeeNumber := NumberFromInput(value))
    case GrossSalary =>
      FormatGroupsDigitStrings(KeepDigits(value));
      f.(grossSalary := SalaryKeystroke(value))
    case FirstName => f.(firstName := SanitizeName(value))
    case LastName => f.(lastName := SanitizeName(value))
  }

  /** `handleSelectChange`: the named field takes the value; choosing a
      salutation may also set the gender. */
  function SelectChange(f: Fields, name: ChoiceName, value: string): (r: Fields)
    ensures name == SalutationChoice ==>
      r == f.(salutation := value, gender := r.gender)
      && (value == "Mr" ==> r.gender == "male")
      && (value == "Mrs" || value == "Ms" ==> r.gender == "female")
      && (value != "Mr" && value != "Mrs" && value != "Ms" ==> r.gender == f.gender)
    ensures name == GenderChoice ==> r == f.(gender := value)
    ensures name == ColourChoice ==> r == f.(profileColour := value)
  {
    match name
    case SalutationChoice =>
      f.(salutation := value, gender := GenderAfterSalutation(value, f.gender))
    case GenderChoice => f.(gender := value)
    case ColourChoice => f.(profileColour := value)
  }

  /** `handleRadioChange`: the named field takes the value, nothing else. */
  function RadioChange(f: Fields, name: ChoiceName, value: string): (r: Fields)
    ensures name == SalutationChoice ==> r == f.(salutation := value)
    ensures name == GenderChoice ==> r == f.(gender := value)
    ensures name == ColourChoice ==> r == f.(profileColour := value)
  {
    match name
    case SalutationChoice => f.(salutation := value)
    case GenderChoice => f.(gender := value)
    case ColourChoice => f.(profileColour := value)
  }

  /** `handleReset` (Cancel): back to the employee's fields, or to the blank
      form in create mode. */
  function Reset(employee: Option<Employee<string>>): (f: Fields)
    ensures employee.None? ==> f == Blank
    ensures employee.Some? ==> f == Load(Blank, employee)
  {
    match employee
    case Some(e) => FromEmployee(e)
    case None => Blank
  }

  /** What one submission does: the request sent, the fields afterwards,
      whether `onSuccess` is called, and the alert shown. */
  datatype Submission = Submission(
    request: Request<Fields>,
    fields: Fields,
    notified: bool,
    alert: Option<string>)

  const UpdateFailedAlert: string := "Failed to update employee. Please try again."
  const AddFailedAlert: string := "Failed to add employee. Please try again."

  /** `handleSubmit`: with an employee, a PUT of the fields and the id to
      that employee's URL; without one, a POST of the fields to the
      collection. Success calls `onSuccess`, and after a create also blanks
      the form; failure shows an alert and keeps the fields. */
  function Submit(employee: Option<Employee<string>>, f: Fields, outcome: Outcome): (s: Submission)
    ensures employee.Some? ==>
      s.request == Request(Put, ItemUrl(employee.value.id), Some(employee.value.id), f)
    ensures employee.None? ==> s.request == Request(Post, CollectionUrl, None, f)
    ensures s.notified <==> outcome == Succeeded
    ensures s.alert.Some? <==> outcome == Failed
    ensures s.fields == if employee.None? && outcome == Succeeded then Blank else f
  {
    match employee
    case Some(e) =>
      var request := Request(Put, ItemUrl(e.id), Some(e.id), f);
      (match outcome
       case Succeeded => Submission(request, f, true, None)
       case Failed => Submission(request, f, false, Some(UpdateFailedAlert)))
    case None =>
      var request := Request(Post, CollectionUrl, None, f);
      match outcome
      case Succeeded => Submission(request, Blank, true, None)
      case Failed => Submission(request, f, false, Some(AddFailedAlert))
  }

  /** `submitForm`, the operation the form hands to its container: the same
      path as a submit from the Save button. */
  function SubmitForm(employee: Option<Employee<string>>, f: Fields, outcome: Outcome): (s: Submission)
    ensures s == Submit(employee, f, outcome)
    ensures s.request.verb == (if employee.Some? then Put else Post)
    ensures s.request.fields == f
    ensures s.notified <==> outcome == Succeeded
  {
    Submit(employee, f, outcome)
  }

  /** A failed submission never touches the fields, in either mode. */
  lemma FailureKeepsFields(employee: Option<Employee<string>>, f: Fields)
    ensures Submit(employee, f, Failed).fields == f
    ensures Submit(employee, f, Failed).alert
         == Some(if employee.Some? then UpdateFailedAlert else AddFailedAlert)
  {
  }

  /** A successful create leaves the form as Cancel would, and a successful
      update leaves it as it was. */
  lemma SuccessfulSubmitFields(employee: Option<Employee<string>>, f: Fields)
    ensures employee.None? ==> Submit(employee, f, Succeeded).fields == Reset(employee)
    ensures employee.Some? ==> Submit(employee, f, Succeeded).fields == f
  {
  }

  /** Two edit-mode submissions go to the same URL only for the same id. */
  lemma PutTargetsTheEmployee(a: Employee<string>, b: Employee<string>, f: Fields, g: Fields, o1: Outcome, o2: Outcome)
    requires Submit(Some(a), f, o1).request.url == Submit(Some(b), g, o2).request.url
    ensures a.id == b.id
  {
    ItemUrlInjective(a.id, b.id);
  }

  /** Loading the same employee twice is loading it once, and Cancel after a
      load restores exactly what the load showed. */
  lemma LoadIdempotent(f: Fields, employee: Option<Employee<string>>)
    ensures Load(Load(f, employee), employee) == Load(f, employee)
    ensures employee.Some? ==> Reset(employee) == Load(f, employee)
  {
  }

  /** Reloading an employee after any keystroke shows the employee again:
      no keystroke survives a load. */
  lemma ReloadUndoesEdits(e: Employee<string>, f: Fields, name: InputName, value: string)
    ensures Load(InputChange(f, name, value), Some(e)) == Load(f, Some(e))
  {
  }

  /** Typing into the salary field twice the text it shows changes nothing;
      sanitised names are stable under retyping too. */
  lemma RetypingIsStable(f: Fields, name: InputName, value: string)
    requires name == GrossSalary || name == FirstName || name == LastName
    ensures var r := InputChange(f, name, value);
      InputChange(r, name, if name == GrossSalary then r.grossSalary
                           else if name == FirstName then r.firstName
                           else r.lastName) == r
  {
    var r := InputChange(f, name, value);
    match name {
      case GrossSalary => SalaryKeystrokeIdempotent(value);
      case FirstName => SanitizeIdempotent(value);
      case LastName => SanitizeIdempotent(value);
    }
  }

  /** The gender rule never changes the salutation: choosing a gender keeps
      the salutation, while choosing a gendered salutation overrides the
      gender. */
  lemma GenderDoesNotDriveSalutation(f: Fields, value: string)
    ensures SelectChange(f, GenderChoice, value).salutation == f.salutation
    ensures RadioChange(f, GenderChoice, value).salutation == f.salutation
    ensures SelectChange(RadioChange(f, GenderChoice, value), SalutationChoice, "Mr").gender == "male"
  {
  }
}

=== FILE: names.dfy ===
/** Name sanitisation of the employee forms: every keystroke in a name field
    drops each character outside the class `[a-zA-Z\s\-À-ɏ]`. */
module Names {
  import opened Base

  /** JavaScript's `\s` class: the ECMAScript white space and line terminator
      code points. */
  predicate IsJsWhitespace(c: char) {
    || c == '\t' || c == '\n' || c == '\U{000B}' || c == '\U{000C}' || c == '\r'
    || c == ' ' || c == '\U{00A0}' || c == '\U{1680}'
    || ('\U{2000}' <= c <= '\U{200A}')
    || c == '\U{2028}' || c == '\U{2029}' || c == '\U{202F}' || c == '\U{205F}'
    || c == '\U{3000}' || c == '\U{FEFF}'
  }

  /** A character a name may hold: an ASCII letter, white space, a hyphen, or
      a code point of Latin-1 Supplement (from U+00C0), Latin Extended-A or
      Latin Extended-B (up to U+024F). */
  predicate IsNameChar(c: char) {
    || ('a' <= c <= 'z') || ('A' <= c <= 'Z')
    || IsJsWhitespace(c)
    || c == '-'
    || ('\U{00C0}' <= c <= '\U{024F}')
  }

  /** The sanitised name: the allowed characters of `value`, in order. */
  function SanitizeName(value: string): (r: string)
    ensures |r| <= |value|
    ensures forall i :: 0 <= i < |r| ==> IsNameChar(r[i])
  {
    Filter(IsNameChar, value)
  }

  /** Sanitisation keeps exactly the allowed characters: each one as often
      as it occurs in the input, none of the others, in input order; and it
      is the longest such subsequence and the only one of that length. */
  lemma SanitizeKeepsExactlyAllowed(value: string)
    ensures forall c :: multiset(SanitizeName(value))[c]
                     == if IsNameChar(c) then multiset(value)[c] else 0
    ensures IsSubsequence(SanitizeName(value), value)
    ensures forall t :: IsSubsequence(t, value) && (forall i :: 0 <= i < |t| ==> IsNameChar(t[i]))
                     ==> |t| <= |SanitizeName(value)|
    ensures forall t :: (IsSubsequence(t, value) && (forall i :: 0 <= i < |t| ==> IsNameChar(t[i]))
                         && |t| == |SanitizeName(value)|) ==> t == SanitizeName(value)
  {
    FilterCounts(IsNameChar, value);
    FilterOrder(IsNameChar, value);
    forall t | IsSubsequence(t, value) && (forall i :: 0 <= i < |t| ==> IsNameChar(t[i]))
      ensures |t| <= |SanitizeName(value)|
      ensures |t| == |SanitizeName(value)| ==> t == SanitizeName(value)
    {
      SubsequenceBound(IsNameChar, t, value);
      if |t| == |SanitizeName(value)| {
        FilterUnique(IsNameChar, t, value);
      }
    }
  }

  /** Sanitising a sanitised name changes nothing. */
  lemma SanitizeIdempotent(value: string)
    ensures SanitizeName(SanitizeName(value)) == SanitizeName(value)
  {
    FilterIdempotent(IsNameChar, value);
  }

  /** A name made only of allowed characters is left as typed, and only such
      a name is. */
  lemma SanitizeFixesExactlyClean(value: string)
    ensures SanitizeName(value) == value
        <==> forall i :: 0 <= i < |value| ==> IsNameChar(value[i])
  {
    if forall i :: 0 <= i < |value| ==> IsNameChar(value[i]) {
      FilterKeepsClean(IsNameChar, value);
    }
  }

  /** Digits typed into a name are dropped: `John123` becomes `John`. */
  lemma SanitizeExample()
    ensures SanitizeName("John123") == "John"
  {
    assert "John123" == "John" + "123";
    FilterAppend(IsNameChar, "John", "123");
    LettersKept();
    DigitsDropped();
  }

  lemma LettersKept()
    ensures Filter(IsNameChar, "John") == "John"
  {
    var name := "John";
    assert IsNameChar(name[0]) && IsNameChar(name[1]) && IsNameChar(name[2]) && IsNameChar(name[3]);
    FilterKeepsClean(IsNameChar, name);
  }

  lemma DigitsDropped()
    ensures Filter(IsNameChar, "123") == []
  {
    var digits := "123";
    assert !IsNameChar(digits[0]) && !IsNameChar(digits[1]) && !IsNameChar(digits[2]);
    FilterDropsRejected(IsNameChar, digits);
  }

  /** Accented Latin letters survive, and so does the multiplication sign
      U+00D7, which sits inside the accepted code-point range. */
  lemma SanitizeKeepsLatinRange()
    ensures SanitizeName("Zoë-Ané") == "Zoë-Ané"
    ensures SanitizeName("a\U{00D7}b") == "a\U{00D7}b"
  {
    AccentedNameKept();
    var sign := "a\U{00D7}b";
    assert IsNameChar(sign[0]) && IsNameChar(sign[1]) && IsNameChar(sign[2]);
    FilterKeepsClean(IsNameChar, sign);
  }

  lemma AccentedNameKept()
    ensures SanitizeName("Zoë-Ané") == "Zoë-Ané"
  {
    var name := "Zoë-Ané";
    assert IsNameChar(name[0]) && IsNameChar(name[1]) && IsNameChar(name[2]) && IsNameChar(name[3]);
    assert IsNameChar(name[4]) && IsNameChar(name[5]) && IsNameChar(name[6]);
    FilterKeepsClean(IsNameChar, name);
  }
}

=== FILE: salary.dfy ===
/** Salary text handling of the employee forms.

    `formatSalaryValue` replaces every match of the regular expression
    `\B(?=(\d{3})+(?!\d))` by a single space. The pattern matches only the
    empty string, so the replacement inserts a space at each matching position
    and copies every original character. This module states that matching
    rule for every input string, then proves that on digit strings it is the
    usual right-to-left grouping in threes. */
module Salary {
  import opened Base

  /** JavaScript's `\w` class (no Unicode flag): ASCII letters, digits, `_`. */
  predicate IsWordChar(c: char) {
    'A' <= c <= 'Z' || 'a' <= c <= 'z' || IsDigit(c) || c == '_'
  }

  /** The length of the run of decimal digits starting at position `i`. */
  function DigitRun(s: string, i: nat): (n: nat)
    requires i <= |s|
    ensures i + n <= |s|
    ensures forall k :: i <= k < i + n ==> IsDigit(s[k])
    ensures i + n < |s| ==> !IsDigit(s[i + n])
    decreases |s| - i
  {
    if i < |s| && IsDigit(s[i]) then 1 + DigitRun(s, i + 1) else 0
  }

  predicate WordBefore(s: string, i: nat)
    requires i <= |s|
  {
    0 < i && IsWordChar(s[i - 1])
  }

  predicate WordAfter(s: string, i: nat)
    requires i <= |s|
  {
    i < |s| && IsWordChar(s[i])
  }

  /** The pattern `\B(?=(\d{3})+(?!\d))` matches at position `i`: the position
      is not a word boundary, and the digits that follow it form a non-empty
      run whose length is a multiple of three and which ends at a non-digit or
      at the end of the string. */
  predicate SeparatorAt(s: string, i: nat)
    requires i <= |s|
  {
    && WordBefore(s, i) == WordAfter(s, i)
    && DigitRun(s, i) > 0
    && DigitRun(s, i) % 3 == 0
  }

  /** The global replacement, from position `i` on: a space at every matching
      position, followed by the original character there. */
  function ReplaceFrom(s: string, i: nat): string
    requires i <= |s|
    decreases |s| - i
  {
    (if SeparatorAt(s, i) then " " else "")
      + (if i == |s| then "" else [s[i]] + ReplaceFrom(s, i + 1))
  }

  /** `formatSalaryValue`: the global replacement over the whole string. */
  function FormatSalaryValue(s: string): string {
    ReplaceFrom(s, 0)
  }

  predicate NotSpace(c: char) {
    c != ' '
  }

  /** Deleting every space. */
  function RemoveSpaces(s: string): (r: string)
    ensures forall i :: 0 <= i < |r| ==> r[i] != ' '
  {
    Filter(NotSpace, s)
  }

  /** The formatter only ever inserts spaces: any filter that drops spaces
      sees the same string before and after formatting. */
  lemma {:induction false} ReplaceFromInsertsSpaces(p: char -> bool, s: string, i: nat)
    requires !p(' ')
    requires i <= |s|
    ensures Filter(p, ReplaceFrom(s, i)) == Filter(p, s[i..])
    decreases |s| - i
  {
    var sep := if SeparatorAt(s, i) then " " else "";
    var tail := if i == |s| then "" else [s[i]] + ReplaceFrom(s, i + 1);
    assert ReplaceFrom(s, i) == sep + tail;
    FilterAppend(p, sep, tail);
    assert Filter(p, sep) == [] by {
      FilterSingle(p, ' ');
    }
    if i < |s| {
      ReplaceFromInsertsSpaces(p, s, i + 1);
      assert s[i..] == [s[i]] + s[i + 1..];
      FilterAppend(p, [s[i]], s[i + 1..]);
      FilterAppend(p, [s[i]], ReplaceFrom(s, i + 1));
    }
  }

  lemma FilterSingle(p: char -> bool, c: char)
    ensures Filter(p, [c]) == if p(c) then [c] else []
  {
    assert [c][1..] == [];
  }

  /** On any input, formatting then deleting spaces is the same as deleting
      spaces: the formatter adds spaces and nothing else. */
  lemma FormatThenRemoveSpaces(s: string)
    ensures RemoveSpaces(FormatSalaryValue(s)) == RemoveSpaces(s)
    ensures |FormatSalaryValue(s)| >= |s|
  {
    ReplaceFromInsertsSpaces(NotSpace, s, 0);
    assert s[0..] == s;
    ReplaceFromLength(s, 0);
  }

  lemma {:induction false} ReplaceFromLength(s: string, i: nat)
    requires i <= |s|
    ensures |ReplaceFrom(s, i)| >= |s| - i
    decreases |s| - i
  {
    if i < |s| {
      ReplaceFromLength(s, i + 1);
    }
  }

  /** The empty salary stays empty. */
  lemma FormatEmpty()
    ensures FormatSalaryValue("") == ""
  {
    assert !SeparatorAt("", 0);
  }

  // ---------------------------------------------------------------------------
  // Digit strings: the reference grouping

  /** Digit-by-digit reference: split off the last three digits while more
      than three remain, joining the groups with single spaces. */
  function GroupDigits(s: string): string
    decreases |s|
  {
    if |s| <= 3 then s
    else GroupDigits(s[..|s| - 3]) + " " + s[|s| - 3..]
  }

  /** On a digit string, the pattern matches exactly at the inner positions
      that have a multiple of three digits after them. */
  lemma SeparatorInDigits(s: string, i: nat)
    requires AllDigits(s)
    requires i <= |s|
    ensures SeparatorAt(s, i) <==> 0 < i < |s| && (|s| - i) % 3 == 0
  {
    DigitRunOfDigits(s, i);
  }

  lemma {:induction false} DigitRunOfDigits(s: string, i: nat)
    requires AllDigits(s)
    requires i <= |s|
    ensures DigitRun(s, i) == |s| - i
    decreases |s| - i
  {
    if i < |s| {
      DigitRunOfDigits(s, i + 1);
    }
  }

  /** With no match at or after `i`, the rest of the string is copied as is. */
  lemma {:induction false} ReplaceFromPlain(s: string, i: nat)
    requires i <= |s|
    requires forall j :: i <= j <= |s| ==> !SeparatorAt(s, j)
    ensures ReplaceFrom(s, i) == s[i..]
    decreases |s| - i
  {
    if i < |s| {
      ReplaceFromPlain(s, i + 1);
      assert s[i..] == [s[i]] + s[i + 1..];
    }
  }

  /** Formatting a digit string with more than three digits is formatting all
      but the last three, then a space, then the last three. */
  lemma {:induction false} ReplaceFromSplitLast(s: string, i: nat)
    requires AllDigits(s)
    requires |s| > 3
    requires i <= |s| - 3
    ensures ReplaceFrom(s, i) == ReplaceFrom(s[..|s| - 3], i) + " " + s[|s| - 3..]
    decreases |s| - i
  {
    var p := s[..|s| - 3];
    var q := s[|s| - 3..];
    assert AllDigits(p);
    SeparatorInDigits(s, i);
    SeparatorInDigits(p, i);
    if i == |p| {
      forall j | i + 1 <= j <= |s|
        ensures !SeparatorAt(s, j)
      {
        SeparatorInDigits(s, j);
      }
      ReplaceFromPlain(s, i + 1);
      assert s[i..] == q;
      assert ReplaceFrom(p, i) == "";
      assert ReplaceFrom(s, i) == " " + ([s[i]] + s[i + 1..]);
      assert [s[i]] + s[i + 1..] == q;
    } else {
      ReplaceFromSplitLast(s, i + 1);
      assert s[i] == p[i];
    }
  }

  /** On digit strings the regular-expression formatter and the grouping
      reference agree. */
  lemma {:induction false} FormatDigitsIsGrouping(s: string)
    requires AllDigits(s)
    ensures FormatSalaryValue(s) == GroupDigits(s)
    decreases |s|
  {
    if |s| <= 3 {
      forall j | 0 <= j <= |s|
        ensures !SeparatorAt(s, j)
      {
        SeparatorInDigits(s, j);
      }
      ReplaceFromPlain(s, 0);
    } else {
      ReplaceFromSplitLast(s, 0);
      FormatDigitsIsGrouping(s[..|s| - 3]);
    }
  }

  // ---------------------------------------------------------------------------
  // The grammar of a grouped salary

  /** A grouped salary: a first group of one to three digits, followed by
      any number of groups of exactly three digits, each preceded by one
      space. */
  predicate Grouped(t: string)
    decreases |t|
  {
    || (1 <= |t| <= 3 && AllDigits(t))
    || (|t| >= 5 && t[|t| - 4] == ' ' && AllDigits(t[|t| - 3..]) && Grouped(t[..|t| - 4]))
  }

  /** A grouped salary is made of digits and spaces only, starts and ends
      with a digit, and never has two spaces in a row. */
  lemma {:induction false} GroupedShape(t: string)
    requires Grouped(t)
    ensures |t| >= 1 && IsDigit(t[0]) && IsDigit(t[|t| - 1])
    ensures forall i :: 0 <= i < |t| ==> IsDigit(t[i]) || t[i] == ' '
    ensures forall i :: 0 <= i < |t| - 1 ==> IsDigit(t[i]) || IsDigit(t[i + 1])
    decreases |t|
  {
    if !(1 <= |t| <= 3 && AllDigits(t)) {
      var u := t[..|t| - 4];
      GroupedShape(u);
      assert t == u + [' '] + t[|t| - 3..];
      forall i | 0 <= i < |t| - 1
        ensures IsDigit(t[i]) || IsDigit(t[i + 1])
      {
        if i < |u| - 1 {
          assert t[i] == u[i] && t[i + 1] == u[i + 1];
        } else if i == |u| - 1 {
          assert t[i] == u[|u| - 1];
        }
      }
    }
  }

  /** Grouping a non-empty digit string yields a grouped salary. */
  lemma {:induction false} GroupDigitsGrouped(s: string)
    requires AllDigits(s)
    requires |s| >= 1
    ensures Grouped(GroupDigits(s))
    ensures |GroupDigits(s)| >= |s|
    decreases |s|
  {
    if |s| > 3 {
      var p := s[..|s| - 3];
      GroupDigitsGrouped(p);
      var t := GroupDigits(s);
      assert t == GroupDigits(p) + " " + s[|s| - 3..];
      assert t[..|t| - 4] == GroupDigits(p);
      assert t[|t| - 3..] == s[|s| - 3..];
    }
  }

  /** Every grouped salary is the formatting of its own digits: removing the
      spaces and formatting again gives it back. Together with
      `FormatDigitsRoundTrip` this makes formatting a one-to-one
      correspondence between non-empty digit strings and grouped salaries. */
  lemma {:induction false} GroupedIsFormatted(t: string)
    requires Grouped(t)
    ensures AllDigits(RemoveSpaces(t)) && |RemoveSpaces(t)| >= 1
    ensures FormatSalaryValue(RemoveSpaces(t)) == t
    decreases |t|
  {
    if 1 <= |t| <= 3 && AllDigits(t) {
      FilterKeepsClean(NotSpace, t);
      FormatDigitsIsGrouping(t);
    } else {
      var u := t[..|t| - 4];
      var q := t[|t| - 3..];
      GroupedIsFormatted(u);
      assert t == u + " " + q;
      RemoveSpacesJoin(u, q);
      var d := RemoveSpaces(t);
      var e := RemoveSpaces(u);
      assert d == e + q;
      assert AllDigits(d);
      assert GroupDigits(d) == GroupDigits(e) + " " + q by {
        assert d[..|d| - 3] == e;
        assert d[|d| - 3..] == q;
      }
      FormatDigitsIsGrouping(d);
      FormatDigitsIsGrouping(e);
    }
  }

  /** Deleting the spaces of two pieces joined by a space. */
  lemma RemoveSpacesJoin(u: string, q: string)
    requires AllDigits(q)
    ensures RemoveSpaces(u + " " + q) == RemoveSpaces(u) + q
  {
    FilterAppend(NotSpace, u + " ", q);
    FilterAppend(NotSpace, u, " ");
    FilterSingle(NotSpace, ' ');
    FilterKeepsClean(NotSpace, q);
    calc {
      RemoveSpaces(u + " " + q);
      Filter(NotSpace, u + " ") + Filter(NotSpace, q);
      Filter(NotSpace, u) + Filter(NotSpace, " ") + q;
      RemoveSpaces(u) + q;
    }
  }

  /** For a digit string, deleting the spaces from the formatted salary gives
      back the digits, and a non-empty one is formatted into a grouped
      salary. */
  lemma FormatDigitsRoundTrip(s: string)
    requires AllDigits(s)
    ensures RemoveSpaces(FormatSalaryValue(s)) == s
    ensures |s| >= 1 ==> Grouped(FormatSalaryValue(s))
  {
    FormatThenRemoveSpaces(s);
    FilterKeepsClean(NotSpace, s);
    FormatDigitsIsGrouping(s);
    if |s| >= 1 {
      GroupDigitsGrouped(s);
    }
  }

  /** Any digit string is formatted into its grouping, and a non-empty one
      into a grouped salary. */
  lemma FormatGroupsDigitStrings(s: string)
    ensures AllDigits(s) ==> FormatSalaryValue(s) == GroupDigits(s)
    ensures AllDigits(s) && s != "" ==> Grouped(FormatSalaryValue(s))
  {
    if AllDigits(s) {
      FormatDigitsIsGrouping(s);
      if s != "" {
        FormatDigitsRoundTrip(s);
      }
    }
  }

  /** One thousand is written `1 000`. */
  lemma FormatThousand()
    ensures FormatSalaryValue("1000") == "1 000"
  {
    FormatDigitsIsGrouping("1000");
    assert "1000"[..1] == "1";
  }

  /** One million is written `1 000 000`. */
  lemma FormatMillion()
    ensures FormatSalaryValue("1000000") == "1 000 000"
  {
    FormatDigitsIsGrouping("1000000");
    GroupMillion();
  }

  lemma GroupMillion()
    ensures GroupDigits("1000000") == "1 000 000"
  {
    assert "1000000"[..4] == "1000";
    assert "1000"[..1] == "1";
    assert GroupDigits("1000") == "1 000";
  }

  // ---------------------------------------------------------------------------
  // The salary keystroke rule of the employee information form

  /** Digits only: `value.replace(/[^\d]/g, '')` and `value.replace(/\D/g, '')`. */
  function KeepDigits(s: string): (r: string)
    ensures AllDigits(r)
  {
    Filter(IsDigit, s)
  }

  /** The salary keystroke: strip the non-digits, then format. */
  function SalaryKeystroke(value: string): (r: string)
    ensures forall i :: 0 <= i < |r| ==> IsDigit(r[i]) || r[i] == ' '
    ensures RemoveSpaces(r) == KeepDigits(value)
    ensures r == GroupDigits(KeepDigits(value))
  {
    var d := KeepDigits(value);
    FormatDigitsRoundTrip(d);
    FormatDigitsIsGrouping(d);
    if d == [] then
      FormatEmpty();
      FormatSalaryValue(d)
    else
      GroupedShape(FormatSalaryValue(d));
      FormatSalaryValue(d)
  }

  /** Typing the displayed salary back in changes nothing. */
  lemma SalaryKeystrokeIdempotent(value: string)
    ensures SalaryKeystroke(SalaryKeystroke(value)) == SalaryKeystroke(value)
  {
    var r := SalaryKeystroke(value);
    var d := KeepDigits(value);
    ReplaceFromInsertsSpaces(IsDigit, d, 0);
    assert d[0..] == d;
    FilterKeepsClean(IsDigit, d);
    assert KeepDigits(r) == d;
  }
}

=== FILE: table.dfy ===
/** The employee table: the fetched list, the loading and error flags, which
    of the add and update forms is shown, and the selected employee. Every
    event is a pure transition on the view state. */
module Table {
  import opened Base
  import opened Employees
  import opened Colours

  datatype State = State(
    rows: Option<seq<Employee<nat>>>,
    loading: bool,
    error: Option<string>,
    showAdd: bool,
    showUpdate: bool,
    selected: Option<Employee<nat>>)

  /** The first render: loading, nothing fetched, no form shown. */
  const Initial: State := State(None, true, None, false, false, None)

  /** What was thrown while fetching: an `Error` carries its message. */
  datatype Thrown = ErrorObject(message: string) | NotAnError

  /** How the list fetch ended. */
  datatype FetchOutcome =
    | Loaded(list: seq<Employee<nat>>)
    | HttpFailure(status: int)
    | Threw(thrown: Thrown)

  const UnknownError: string := "An unknown error occured"

  /** The message stored for a failed fetch. */
  function FailureMessage(o: FetchOutcome): (m: string)
    requires !o.Loaded?
    ensures o.HttpFailure? ==> m == "HTTP error! status: " + IntDecimal(o.status)
    ensures o.Threw? && o.thrown.ErrorObject? ==> m == o.thrown.message
    ensures o == Threw(NotAnError) ==> m == UnknownError
  {
    match o
    case HttpFailure(status) => "HTTP error! status: " + IntDecimal(status)
    case Threw(ErrorObject(message)) => message
    case Threw(NotAnError) => UnknownError
  }

  /** The end of the fetch: the list or the error is stored, and loading
      stops either way (the `finally` clause). */
  function FetchCompleted(s: State, o: FetchOutcome): (r: State)
    ensures !r.loading
    ensures o.Loaded? ==> r == s.(rows := Some(o.list), loading := false)
    ensures !o.Loaded? ==> r == s.(error := Some(FailureMessage(o)), loading := false)
  {
    match o
    case Loaded(list) => s.(rows := Some(list), loading := false)
    case _ => s.(error := Some(FailureMessage(o)), loading := false)
  }

  /** `handleEmployeeFormDisplay`: `add` shows the add form alone and keeps
      the selection; `update` with an employee shows the update form alone
      and selects that employee; anything else changes nothing. */
  function DisplayForm(s: State, form: string, employee: Option<Employee<nat>>): (r: State)
    ensures form == "add" ==> r == s.(showAdd := true, showUpdate := false)
    ensures form == "update" && employee.Some? ==>
      r == s.(showAdd := false, showUpdate := true, selected := employee)
    ensures form != "add" && (form != "update" || employee.None?) ==> r == s
  {
    if form == "add" then s.(showAdd := true, showUpdate := false)
    else if form == "update" && employee.Some? then
      s.(showAdd := false, showUpdate := true, selected := employee)
    else s
  }

  /** The Close button under the add form. */
  function CloseAdd(s: State): (r: State)
    ensures r == s.(showAdd := false)
  {
    s.(showAdd := false)
  }

  /** The Close button under the update form. */
  function CloseUpdate(s: State): (r: State)
    ensures r == s.(showUpdate := false)
  {
    s.(showUpdate := false)
  }

  /** What the table renders. */
  datatype View =
    | LoadingView
    | ErrorView(text: string)
    | TableView(rows: seq<Employee<nat>>, addForm: bool, updateForm: Option<Employee<nat>>)

  /** Loading first, then a non-empty error, then the table; an empty error
      message is falsy and lets the table through. */
  function Render(s: State): (v: View)
    ensures v.LoadingView? <==> s.loading
    ensures v.ErrorView? <==> !s.loading && s.error.Some? && s.error.value != ""
    ensures v.ErrorView? ==> v.text == "Error: " + s.error.value
    ensures v.TableView? ==> v.rows == (if s.rows.Some? then s.rows.value else [])
    ensures v.TableView? ==> v.addForm == s.showAdd
    ensures v.TableView? && s.showUpdate ==> v.updateForm == s.selected
    ensures v.TableView? && !s.showUpdate ==> v.updateForm.None?
    ensures v.TableView? && Valid(s) ==> (v.updateForm.Some? <==> s.showUpdate)
  {
    if s.loading then LoadingView
    else if s.error.Some? && s.error.value != "" then ErrorView("Error: " + s.error.value)
    else TableView(
      if s.rows.Some? then s.rows.value else [],
      s.showAdd,
      if s.showUpdate then s.selected else None)
  }

  /** The background of a row: the stored colour through the case-folding
      lookup. */
  function RowColour(e: Employee<nat>): (c: string)
    ensures e.profileColour != NoColour ==> IsHexColour(c)
    ensures e.profileColour == NoColour ==> c == "none"
  {
    ColourTextIsLower(e.profileColour);
    FoldedExtendsExact(e.profileColour.Text());
    DisplayColorFolded(e.profileColour.Text())
  }

  lemma ColourTextIsLower(c: Colour)
    ensures Lower(c.Text()) == c.Text()
  {
    match c {
      case Green => assert Lower("green") == "green";
      case Blue => assert Lower("blue") == "blue";
      case Red => assert Lower("red") == "red";
      case NoColour => assert Lower("none") == "none";
    }
  }

  /** Stored colours are lower case, so both lookup revisions colour a row
      alike. */
  lemma RowColourRevisionsAgree(e: Employee<nat>)
    ensures RowColour(e) == DisplayColorExact(e.profileColour.Text())
  {
    ColourTextIsLower(e.profileColour);
    FoldedExtendsExact(e.profileColour.Text());
  }

  /** The user and network events the table reacts to. */
  datatype Event =
    | FetchDone(outcome: FetchOutcome)
    | AddClicked
    | RowClicked(employee: Employee<nat>)
    | AddClosed
    | UpdateClosed

  function Step(s: State, ev: Event): State {
    match ev
    case FetchDone(o) => FetchCompleted(s, o)
    case AddClicked => DisplayForm(s, "add", None)
    case RowClicked(e) => DisplayForm(s, "update", Some(e))
    case AddClosed => CloseAdd(s)
    case UpdateClosed => CloseUpdate(s)
  }

  function Run(s: State, events: seq<Event>): State
    decreases |events|
  {
    if events == [] then s else Run(Step(s, events[0]), events[1..])
  }

  /** The view-state invariant: never both forms at once, and the update
      form only with an employee selected. */
  predicate Valid(s: State) {
    !(s.showAdd && s.showUpdate) && (s.showUpdate ==> s.selected.Some?)
  }

  /** Every single event keeps the invariant. */
  lemma StepKeepsValid(s: State, ev: Event)
    requires Valid(s)
    ensures Valid(Step(s, ev))
  {
  }

  /** From any valid state, every sequence of events keeps the two forms
      mutually exclusive and the update form backed by a selection. */
  lemma {:induction false} RunKeepsValid(s: State, events: seq<Event>)
    requires Valid(s)
    ensures Valid(Run(s, events))
    decreases |events|
  {
    if events != [] {
      StepKeepsValid(s, events[0]);
      RunKeepsValid(Step(s, events[0]), events[1..]);
    }
  }

  /** Once the fetch has failed with a message, the error replaces the table
      for good: no user event brings the table back. */
  lemma {:induction false} ErrorIsFinal(s: State, events: seq<Event>)
    requires s.error.Some? && s.error.value != "" && !s.loading
    requires forall i :: 0 <= i < |events| ==> !events[i].FetchDone?
    ensures Render(Run(s, events)) == Render(s)
    decreases |events|
  {
    if events != [] {
      ErrorIsFinal(Step(s, events[0]), events[1..]);
    }
  }

  /** Clicking a row of a shown table opens the update form with exactly
      the clicked employee, alone, over the same rows. */
  lemma RowClickShowsEmployee(s: State, e: Employee<nat>)
    requires !s.loading && (s.error.None? || s.error.value == "")
    ensures Render(Step(s, RowClicked(e))).TableView?
    ensures Render(Step(s, RowClicked(e))).updateForm == Some(e)
    ensures !Render(Step(s, RowClicked(e))).addForm
    ensures Render(Step(s, RowClicked(e))).rows == Render(s).rows
  {
  }

  /** Every state reachable from the first render is valid. */
  lemma ReachableIsValid(events: seq<Event>)
    ensures Valid(Run(Initial, events))
  {
    RunKeepsValid(Initial, events);
  }

  /** A rejected fetch shows `Error: <message>` and no table; a loaded one
      shows the table with the rows. */
  lemma FetchScenarios(message: string, list: seq<Employee<nat>>)
    requires message != ""
    ensures Render(FetchCompleted(Initial, Threw(ErrorObject(message)))) == ErrorView("Error: " + message)
    ensures Render(FetchCompleted(Initial, Loaded(list))) == TableView(list, false, None)
    ensures Render(Initial) == LoadingView
  {
  }
}

=== FILE: update_form.dfy ===
/** The update form: edits a given employee. It keeps the gross salary as a
    number in its fields and, separately, the grouped text shown in the
    salary box. */
module UpdateForm {
  import opened Base
  import opened Employees
  import opened Salary
  import opened Names
  import InfoForm

  datatype Fields = Fields(
    firstName: string,
    lastName: string,
    salutation: string,
    gender: string,
    employeeNumber: Num,
    grossSalary: nat,
    profileColour: string)

  /** The fields and the text shown in the salary box. */
  datatype State = State(fields: Fields, formattedSalary: string)

  /** The fields of an employee, every one copied as is. */
  function FromEmployee(e: Employee<nat>): (f: Fields)
    ensures f.firstName == e.firstName && f.lastName == e.lastName
    ensures f.salutation == e.salutation.Text() && f.gender == e.gender.Text()
    ensures f.employeeNumber == Int(e.employeeNumber)
    ensures f.grossSalary == e.grossSalary
    ensures f.profileColour == e.profileColour.Text()
  {
    Fields(e.firstName, e.lastName, e.salutation.Text(), e.gender.Text(),
           Int(e.employeeNumber), e.grossSalary, e.profileColour.Text())
  }

  /** The first render: the employee's fields, and an empty salary box (the
      employee's salary is not shown until the user types one). */
  function Init(e: Employee<nat>): (s: State)
    ensures s.fields == FromEmployee(e)
    ensures s.formattedSalary == ""
  {
    State(FromEmployee(e), "")
  }

  /** The effect run when the `employee` property changes: the fields are
      replaced, the salary box keeps its text. */
  function Load(s: State, e: Employee<nat>): (r: State)
    ensures r.fields == FromEmployee(e)
    ensures r.formattedSalary == s.formattedSalary
  {
    s.(fields := FromEmployee(e))
  }

  /** `handleInputChange`. A salary keystroke stores the number its digits
      spell (0 when there are none) and shows those digits grouped; a name
      is sanitised; the employee number is parsed. Only the edited field,
      and for the salary the salary box, change. */
  function InputChange(s: State, name: InputName, value: string): (r: State)
    ensures name != GrossSalary ==> r.formattedSalary == s.formattedSalary
    ensures name == FirstName ==> r.fields == s.fields.(firstName := SanitizeName(value))
    ensures name == LastName ==> r.fields == s.fields.(lastName := SanitizeName(value))
    ensures name == EmployeeNumber ==> r.fields == s.fields.(employeeNumber := r.fields.employeeNumber)
    ensures name == EmployeeNumber ==> r.fields.employeeNumber == NumberFromInput(value)
    ensures name == GrossSalary ==> r.fields == s.fields.(grossSalary := r.fields.grossSalary)
    ensures name == GrossSalary ==> RemoveSpaces(r.formattedSalary) == KeepDigits(value)
    ensures name == GrossSalary ==> r.formattedSalary == GroupDigits(KeepDigits(value))
    ensures name == GrossSalary && KeepDigits(value) == "" ==> r.fields.grossSalary == 0
    ensures name == GrossSalary ==> r.fields.grossSalary == DigitsValue(KeepDigits(value))
  {
    match name
    case EmployeeNumber => s.(fields := s.fields.(employeeNumber := NumberFromInput(value)))
    case GrossSalary =>
      var digits := KeepDigits(value);
      FormatDigitsRoundTrip(digits);
      FormatDigitsIsGrouping(digits);
      var amount: nat := if digits == "" then 0 else DigitsValue(digits);
      State(s.fields.(grossSalary := amount), FormatSalaryValue(digits))
    case FirstName => s.(fields := s.fields.(firstName := SanitizeName(value)))
    case LastName => s.(fields := s.fields.(lastName := SanitizeName(value)))
  }

  /** `handleSelectChange`: the same salutation-to-gender rule as the
      information form. */
  function SelectChange(s: State, name: ChoiceName, value: string): (r: State)
    ensures r.formattedSalary == s.formattedSalary
    ensures name == SalutationChoice ==>
      r.fields == s.fields.(salutation := value, gender := r.fields.gender)
      && (value == "Mr" ==> r.fields.gender == "male")
      && (value == "Mrs" || value == "Ms" ==> r.fields.gender == "female")
      && (value != "Mr" && value != "Mrs" && value != "Ms" ==> r.fields.gender == s.fields.gender)
    ensures name == GenderChoice ==> r.fields == s.fields.(gender := value)
    ensures name == ColourChoice ==> r.fields == s.fields.(profileColour := value)
  {
    match name
    case SalutationChoice =>
      s.(fields := s.fields.(salutation := value,
                             gender := GenderAfterSalutation(value, s.fields.gender)))
    case GenderChoice => s.(fields := s.fields.(gender := value))
    case ColourChoice => s.(fields := s.fields.(profileColour := value))
  }

  /** `handleRadioChange`: exactly the named field takes the value. */
  function RadioChange(s: State, name: ChoiceName, value: string): (r: State)
    ensures r.formattedSalary == s.formattedSalary
    ensures name == SalutationChoice ==> r.fields == s.fields.(salutation := value)
    ensures name == GenderChoice ==> r.fields == s.fields.(gender := value)
    ensures name == ColourChoice ==> r.fields == s.fields.(profileColour := value)
  {
    match name
    case SalutationChoice => s.(fields := s.fields.(salutation := value))
    case GenderChoice => s.(fields := s.fields.(gender := value))
    case ColourChoice => s.(fields := s.fields.(profileColour := value))
  }

  /** `handleReset` (Cancel): all seven fields from the employee again, and
      the salary box cleared. */
  function Reset(e: Employee<nat>): (r: State)
    ensures r == Init(e)
    ensures r.formattedSalary == ""
  {
    State(FromEmployee(e), "")
  }

  /** What one submission does: the request, the state afterwards (always
      the state before), and the alert shown. */
  datatype Submission = Submission(request: Request<Fields>, state: State, alert: string)

  const UpdatedAlert: string := "Employee updated successfully"
  const UpdateFailedAlert: string := "Failed to update employee. Please try again."

  /** `handleSubmit`: always a PUT of the fields, with the employee's id, to
      the employee's URL; either way an alert and no change of state. */
  function Submit(e: Employee<nat>, s: State, outcome: Outcome): (r: Submission)
    ensures r.request.verb == Put
    ensures r.request.url == ItemUrl(e.id) && r.request.id == Some(e.id)
    ensures r.request.fields == s.fields
    ensures r.state == s
    ensures r.alert == (if outcome == Succeeded then UpdatedAlert else UpdateFailedAlert)
  {
    var request := Request(Put, ItemUrl(e.id), Some(e.id), s.fields);
    match outcome
    case Succeeded => Submission(request, s, UpdatedAlert)
    case Failed => Submission(request, s, UpdateFailedAlert)
  }

  /** The salary box and the stored salary agree: the box is either empty
      or shows digits whose value is the stored salary. */
  predicate SalaryConsistent(s: State) {
    s.formattedSalary == ""
      || (AllDigits(RemoveSpaces(s.formattedSalary))
          && DigitsValue(RemoveSpaces(s.formattedSalary)) == s.fields.grossSalary)
  }

  /** Every handler except a reload keeps the salary box and the stored
      salary in agreement, starting from the first render. */
  lemma SalaryConsistencyPreserved(e: Employee<nat>, s: State, name: InputName, choice: ChoiceName, value: string)
    requires SalaryConsistent(s)
    ensures SalaryConsistent(Init(e))
    ensures SalaryConsistent(InputChange(s, name, value))
    ensures SalaryConsistent(SelectChange(s, choice, value))
    ensures SalaryConsistent(RadioChange(s, choice, value))
    ensures SalaryConsistent(Reset(e))
  {
  }

  /** A reload with another employee keeps the salary box of the previous
      one: after typing 7 for one employee and selecting another who earns
      anything else, the box still shows 7 while the other salary is stored
      and sent. */
  lemma LoadKeepsStaleSalaryBox(a: Employee<nat>, b: Employee<nat>)
    requires b.grossSalary != 7
    ensures var typed := InputChange(Init(a), GrossSalary, "7");
      SalaryConsistent(typed) && !SalaryConsistent(Load(typed, b))
  {
    var typed := InputChange(Init(a), GrossSalary, "7");
    FilterKeepsClean(IsDigit, "7");
    FormatDigitsRoundTrip("7");
    assert RemoveSpaces(typed.formattedSalary) == "7";
    assert DigitsValue("7") == 7;
  }

  /** The reload the rest of the form implies: like Cancel, it clears the
      salary box along with replacing the fields. */
  function LoadClearingSalaryBox(s: State, e: Employee<nat>): (r: State)
    ensures r.fields == FromEmployee(e)
    ensures SalaryConsistent(r)
  {
    State(FromEmployee(e), "")
  }

  /** The salary box shows what the information form's salary field shows
      for the same keystroke. */
  lemma DisplayMatchesInfoForm(s: State, f: InfoForm.Fields, value: string)
    ensures InputChange(s, GrossSalary, value).formattedSalary
         == InfoForm.InputChange(f, GrossSalary, value).grossSalary
  {
  }

  /** Both forms apply the same salutation-to-gender rule and the same name
      filter. */
  lemma SameRulesAsInfoForm(s: State, f: InfoForm.Fields, name: InputName, value: string)
    requires s.fields.gender == f.gender
    requires name == FirstName || name == LastName
    ensures SelectChange(s, SalutationChoice, value).fields.gender
         == InfoForm.SelectChange(f, SalutationChoice, value).gender
    ensures name == FirstName ==>
      InputChange(s, name, value).fields.firstName == InfoForm.InputChange(f, name, value).firstName
    ensures name == LastName ==>
      InputChange(s, name, value).fields.lastName == InfoForm.InputChange(f, name, value).lastName
  {
  }
}
